=== FILE: README.md ===
# faiss-rust binary index wrapper, modelled in Dafny

faiss-rust wraps FAISS's binary (Hamming-distance) indexes for Rust. FAISS does the
distance scans and hash buckets. The repository's own logic is small and is what this
project models:

- **Label store** (`IndexBinaryFlat<D>` in `src/lib.rs`). The wrapper keeps an
  append-only list of caller labels (`ids`) beside the engine, which holds the vectors.
  `new` builds it, `add` appends one label, and `add_all` drains the caller's label
  vector onto `ids`. An empty batch does nothing. The engine's store is abstracted to
  `engineCount`, the number of vectors handed to it. `Aligned` is the count
  invariant `|ids| == engineCount`. Label i names the vector the engine stored at
  position i if the count held after every call, which is the condition
  `EveryPrefixAlignedIff` characterises.
- **Search-result builder** (`IndexBinarySearchQueryResult::new`,
  `IndexBinarySearchResult::new` and `IndexBinaryFlat::search`). It allocates an n x k
  grid of sentinel records (distance -1, index -1, empty label). It then copies each
  record out of the engine's flat `distances`/`indexes` buffers and takes a label from
  `ids`. The engine's buffers are parameters: any pair of length `k * n`.
- **Range-search compaction** (`index_binary_multi_hash_range_search` in
  `src/IndexBinaryHash.cpp`). The engine returns a CSR-style result: query q's hits are
  entries `lims[q] .. lims[q+1]`. The loop caps each window at k hits and writes into
  caller buffers with stride k. It also records a per-query count in `sizes`. The
  caller's buffers are given by their contents on entry, and each in-place write
  becomes a sequence update.

Modules:

- `Native`: machine integer widths and Rust's panic outcome.
- `Grid`: the row-major `Slot(row, stride, col)` arithmetic shared by both builders.
- `SearchResult`, `BinaryFlat` and `FlatSearch`: `src/lib.rs`.
- `MultiHashRange`: `src/IndexBinaryHash.cpp`.
- `RangeScenarios`: concrete runs of the compaction.

A few behaviours of the code are worth stating plainly, since a reader may expect
otherwise:

- The sentinel label is the empty string.
- `add_all` never checks that the label and vector counts match.
- `search` reads with stride `queries.len()` and labels each record from `ids` at the
  flat slot, not at the position the engine returned.
- `search` panics when there are no queries, when k is 0, when there are more queries
  than k, and when any slot it reads lies beyond `ids`.

## Model

| member | source | states |
|---|---|---|
| `Native.UsizeAsI64` | src/lib.rs:71-73 | `D as i64` agrees with D modulo 2^64 and is non-negative exactly when D fits in i64 |
| `SearchResult.Sentinel` | src/lib.rs:37-43 | a fresh query record is the sentinel: distance -1, index -1, empty label |
| `SearchResult.NewSearchResult` | src/lib.rs:50-56 | `new(k, results)` has exactly `results` rows of exactly k records, each the sentinel |
| `BinaryFlat.New` | src/lib.rs:70-77 | a new index has no labels, an empty engine, width D and `dims == D` when D fits in i64, so it starts aligned |
| `BinaryFlat.Add` | src/lib.rs:79-85 | `add` appends exactly one label at the end, keeps earlier labels, grows the engine count by one, and on an aligned index puts the label at the position the engine gives the vector |
| `BinaryFlat.AddAll` | src/lib.rs:87-97 | empty batch: index and caller labels unchanged; otherwise `ids' == ids + callerIds`, the caller's vector is left empty and the engine count grows by `|data|`; an aligned index stays aligned iff the batch is empty or its two lengths agree |
| `BinaryFlat.UncheckedBatchBreaksAlignment` | src/lib.rs:87-96 | one vector with no labels is accepted and leaves the store misaligned |
| `BinaryFlat.AddAllChecked` | src/lib.rs:87-96 | with the missing length guard, a batch is refused exactly when its counts differ; an accepted batch behaves as `add_all` and keeps an aligned index aligned |
| `BinaryFlat.ApplyAppends` | src/lib.rs:79-96 | each mutating call appends its stored labels and hands over its vectors |
| `BinaryFlat.ReplayAppends` | src/lib.rs:79-96 | after any sequence of `add`/`add_all` calls the labels are the old labels followed by the new ones, so positions never move, and the engine count grows by the vectors handed over |
| `BinaryFlat.ReplayAlignedIff` | src/lib.rs:70-96 | from `new`, the label count equals the vector count exactly when the history stored as many labels as vectors |
| `BinaryFlat.EveryPrefixAlignedIff` | src/lib.rs:70-96 | from `new`, the counts agree after every prefix of a history (which guarantees every label sits at its vector's position, see `EveryPrefixAlignedPutsLabelsAtTheirVectors`) iff every call is an `add`, a batch with as many labels as vectors, or an empty batch |
| `BinaryFlat.EveryPrefixAlignedPutsLabelsAtTheirVectors` | src/lib.rs:79-96 | from `new`, if the counts agree after every prefix, then label j of call i sits at the engine position that call's vector j received |
| `BinaryFlat.ShiftedButCounted` | src/lib.rs:87-96 | a batch of one vector with no labels followed by one vector with labels x, y ends with equal counts, yet "x" sits at position 0 while its vector is at position 1 |
| `BinaryFlat.ShortLastBatchShiftsNothing` | src/lib.rs:87-96 | one batch of two vectors with the single label x leaves the counts unequal, yet "x" sits at position 0 with its vector, so every-prefix alignment is not necessary for labels to match positions |
| `BinaryFlat.BalancedHistoryKeepsAligned` | src/lib.rs:79-96 | a history whose batches all have matching lengths keeps an aligned index aligned |
| `FlatSearch.StrideNFitsIff` | src/lib.rs:101-116 | with stride n, the last slot read, `(n-1)*n + k-1`, is inside the `k*n` buffers iff `n <= k` |
| `FlatSearch.LastSlotIsLargest` | src/lib.rs:111-116 | no slot the copy loop reads is larger than its last one |
| `FlatSearch.AsWrittenReadsInBoundsIff` | src/lib.rs:111-116 | every `r*n+rk` read of the buffers and of `ids` is in bounds iff `k*n == 0` or (`n <= k` and `|ids| > (n-1)*n + k-1`) |
| `FlatSearch.Search` | src/lib.rs:99-122 | the search returns iff `k*n > 0`, `n <= k` and `|ids| > (n-1)*n + k-1`; the result then has n rows of k records, and record (r, rk) is distance, index and label from flat slot `r*n+rk` of the engine buffers and of `ids` |
| `FlatSearch.BuildResults` | src/lib.rs:111-119 | the corrected builder reads slot `r*k+rk`, always in bounds, labels each record with the label stored at the returned position, and gives the empty label to an out-of-range position such as the engine's -1 |
| `FlatSearch.StrideKReadsEverySlotOnce` | src/lib.rs:101-102 | with stride k, every slot of the `k*n` buffers is read by exactly one (row, rank) |
| `FlatSearch.UnfilledBuffersGiveSentinels` | src/lib.rs:100-102 | the corrected builder maps engine buffers left at -1 to exactly the all-sentinel grid of `IndexBinarySearchResult::new`, for any n, k and labels |
| `FlatSearch.PaddingIsNotSentinel` | src/lib.rs:111-117 | as written, an unfilled record (distance -1, position -1) of query 0x00 at k = 2 comes back labelled "a", not as the sentinel |
| `FlatSearch.BuilderPadsWithSentinel` | src/lib.rs:100-102 | the corrected builder returns that record as the sentinel |
| `FlatSearch.MoreRanksThanLabelsPanics` | src/lib.rs:111-116 | as written, any search with at least one query and more ranks than stored labels panics |
| `FlatSearch.ShortStoreOverrun` | src/lib.rs:111-116 | query 0x00 at k = 4 over three labels panics even though the engine padded its answer with -1 |
| `FlatSearch.ThreeEntryIndexIsOneBatch` | src/lib.rs:87-96 | one `add_all` of 0x00, 0xFF, 0xF0 with labels a, b, c yields labels a, b, c at positions 0, 1, 2 |
| `FlatSearch.SlotLabelMismatch` | src/lib.rs:111-117 | on that index, query 0x00 at k = 2 with engine answer [0, 4] / [0, 2] returns a record at position 2 labelled "b" |
| `FlatSearch.BuilderLabelsByPosition` | src/lib.rs:111-117 | the corrected builder labels the same record "c" |
| `FlatSearch.StrideOverrun` | src/lib.rs:111-116 | two queries at k = 1 panic, though the buffers hold both answers |
| `FlatSearch.EmptySearchPanics` | src/lib.rs:101-106 | a search with no queries panics |
| `Grid.SlotOrder` | src/IndexBinaryHash.cpp:25-26 | with stride k, every slot of an earlier row precedes every slot of a later one, so rows never overlap |
| `Grid.GridFitsIff` | src/IndexBinaryHash.cpp:25-26 | every cell of an n x k grid lies in a buffer iff the buffer holds at least `n*k` slots |
| `Grid.SlotCovers` | src/lib.rs:101-102 | every slot below `rows*cols` is cell (i / cols, i % cols) |
| `MultiHashRange.WindowLength` | src/IndexBinaryHash.cpp:20-22 | the window `[lims[q], min(lims[q+1], lims[q]+k))` holds at most k hits, `min(lims[q+1]-lims[q], k)` when the offsets are ordered, and is non-empty iff `lims[q] < lims[q+1]` and `k > 0` |
| `MultiHashRange.SortedLimsReadInBounds` | src/IndexBinaryHash.cpp:17-22 | non-decreasing offsets whose last is at most the result length keep every read in bounds |
| `MultiHashRange.RangeSearchCompact` | src/IndexBinaryHash.cpp:14-30 | for a non-empty window, `sizes[q]` is its length (at most k) and slot `q*k` holds its last hit; every slot that is not such a head, and `sizes[q]` of an empty window, keep their old values |
| `MultiHashRange.HitWrittenStep` | src/IndexBinaryHash.cpp:20-26 | the slots written for the first q+1 queries are those for the first q plus the prefix of row q |
| `MultiHashRange.CopyWindow` | src/IndexBinaryHash.cpp:24-26 | corrected inner loop: hit j of query q's window lands in slot `q*k + j`, every other slot unchanged |
| `MultiHashRange.RangeSearchCompactFixed` | src/IndexBinaryHash.cpp:20-29 | corrected loop: `sizes[q]` is the window length for every query (0 when empty), row q holds the window's hits in order, and nothing else changes |
| `RangeScenarios.AsWrittenLosesResults` | src/IndexBinaryHash.cpp:24-27 | two hits (0, position 0) and (4, position 2) at k = 3 give `sizes == [2]` but buffers `[4, -1, -1]` / `[2, -1, -1]` |
| `RangeScenarios.AsWrittenLeavesStaleSize` | src/IndexBinaryHash.cpp:24-28 | a query with no hits leaves `sizes[0]` at its stale value 7 |
| `RangeScenarios.FixedKeepsEveryResult` | src/IndexBinaryHash.cpp:20-29 | the corrected loop on the two-hit result gives `[0, 4, -1]` / `[0, 2, -1]` and `sizes == [2]` |

## Left out

- FAISS itself is not modelled: Hamming k-NN search, multi-hash bucketing and building the `RangeSearchResult` (src/lib.rs:105-106, src/IndexBinaryHash.cpp:17-18). It is a foreign library. Its outputs are parameters, and its vector store is the count `engineCount`.
- The cxx bridge, `unsafe` pointer passing and the `Send`/`Sync` impls are FFI plumbing with no logic to model.
- `RwLock` locking and poisoning are left out because they are concurrency. Every operation is sequential. A poisoned lock's `unwrap` panic is not modelled.
- `UniquePtr::as_mut` skips the engine call on a null pointer. The constructor never returns null, so this path is not modelled.
- `display` is left out because it only does I/O.
- The float-to-int distance conversion at src/IndexBinaryHash.cpp:25 is left out. Engine distances are integers.
- The constructors and extract functions in src/IndexBinaryFlat.cpp, src/IndexBinaryHash.cpp:6-12 and the headers are one-line library wrappers. The header's 4-argument `new_index_binary_multi_hash` does not match the 3-argument definition, which is a link-time matter.
- `IndexBinaryFlat<D>` passes D to FAISS as its dimension, which FAISS counts in bits, while vectors are `[u8; D]`, i.e. D bytes. The engine's reading of the buffer is outside the model, so this mismatch is noted here and not modelled. The commented-out bound at src/lib.rs:68 shows that D was meant to be a multiple of 8. The fixtures' D = 1 ignores that bound, which the wrapper's own logic never reads.
- src/main.rs and build.rs are a demo entry point and build configuration.
- Integers are unbounded. Overflow of `k*queries.len()`, `r*queries.len()+rk`, `q*k` and `begin+k` in usize/size_t is not modelled, and neither is allocation failure.
- `MultiHashRange.RangeSearchCompact`: `k` is an `idx_t` (signed) in the source but is modelled as a natural number up to `I64_MAX`. A negative k is not modelled. The C++ adds k to `lims[q]` in `size_t` with wrap-around. A query with `lims[q] >= -k` gets an empty window. An earlier query, always including query 0, gets an uncapped window, with `sizes[q] = k` and writes at a wrapped `q*k`.
- `FlatSearch.Search`: on a panic it states only that the reported index is out of range, not which of the three reads panicked. The empty-buffer panic is reported as index 0 of length 0.
- The caller's `distances`, `labels` and `sizes` buffers of `index_binary_multi_hash_range_search` are assumed disjoint. In the C++ source, `labels` and `sizes` are both `idx_t*` (src/IndexBinaryHash.cpp:15) and could alias. Each buffer is modelled as its own sequence.
- The query vectors' contents only reach the engine, so the search model uses only their number.

## Findings

| source | as written | input that shows it | evidently intended | confidence | as-written member | corrected member |
|---|---|---|---|---|---|---|
| src/lib.rs:114-116 | rows are read with stride `queries.len()` | 2 queries, k = 1: row 1 reads slot 2 of 2-slot buffers and panics | stride k: slot `r*k+rk` | high, not executed | `FlatSearch.Search`, `FlatSearch.StrideOverrun` | `FlatSearch.BuildResults`, `FlatSearch.StrideKReadsEverySlotOnce` |
| src/lib.rs:116 | label is `ids[slot]` | labels a, b, c; query 0x00, k = 2; engine positions [0, 2]: record for position 2 is labelled "b" | label of the returned position, `ids[indexes[slot]]` | high, not executed | `FlatSearch.Search`, `FlatSearch.SlotLabelMismatch` | `FlatSearch.BuildResults`, `FlatSearch.BuilderLabelsByPosition` |
| src/lib.rs:111-117 | each record is labelled `ids[slot]` and every slot must exist in `ids` | query 0x00 at k = 2 with the engine's -1 padding: the padding record is labelled "a"; at k = 4 over three labels the search panics | padding records stay sentinels and are never looked up in `ids` | high, not executed | `FlatSearch.PaddingIsNotSentinel`, `FlatSearch.ShortStoreOverrun`, `FlatSearch.MoreRanksThanLabelsPanics` | `FlatSearch.BuildResults`, `FlatSearch.BuilderPadsWithSentinel`, `FlatSearch.UnfilledBuffersGiveSentinels` |
| src/lib.rs:101-106 | `&mut distances[0]` on a buffer of length `k*n` | no queries (or k = 0): index 0 of an empty vector, panic | return the empty grid | medium, not executed | `FlatSearch.Search`, `FlatSearch.EmptySearchPanics` | `FlatSearch.BuildResults` |
| src/lib.rs:87-96 | `add_all` drains any number of labels | one vector, no labels: store misaligned | refuse a batch whose counts differ | medium, not executed | `BinaryFlat.AddAll`, `BinaryFlat.UncheckedBatchBreaksAlignment` | `BinaryFlat.AddAllChecked` |
| src/IndexBinaryHash.cpp:25-26 | every hit is written to slot `q*k` | hits (0, 0) and (4, 2) at k = 3: only (4, 2) survives, in slot 0 | hit j to slot `q*k + j` | high, not executed | `MultiHashRange.RangeSearchCompact`, `RangeScenarios.AsWrittenLosesResults` | `MultiHashRange.RangeSearchCompactFixed`, `RangeScenarios.FixedKeepsEveryResult` |
| src/IndexBinaryHash.cpp:24-28 | `sizes[q]` is set only inside the hit loop | a query with no hits leaves `sizes[0]` at its stale 7 | `sizes[q] = 0` for an empty window | high, not executed | `MultiHashRange.RangeSearchCompact`, `RangeScenarios.AsWrittenLeavesStaleSize` | `MultiHashRange.RangeSearchCompactFixed` |

=== FILE: binary_flat.dfy ===
/**
 * The label store of the exact (flat) binary index: an append-only list of
 * caller labels kept beside the engine, which holds the vectors. The engine's
 * store is abstracted to the number of vectors handed to it.
 */
module BinaryFlat {
  import opened Native

  /** A stored or query bit-vector: the bytes of a `[u8; D]`. */
  type Vector = seq<u8>

  /**
   * `dim` is the compile-time width D, `dims` the `D as i64` copy kept in the
   * struct, `ids` the labels in insertion order and `engineCount` the number
   * of vectors the engine has been given.
   */
  datatype Index = Index(dim: nat, dims: i64, ids: seq<string>, engineCount: nat)

  /**
   * The store holds as many labels as the engine holds vectors. This is a
   * count, not a positional match: see `EveryPrefixAlignedIff` for when
   * every label also sits at the position of the vector it came with.
   */
  predicate Aligned(idx: Index)
  {
    |idx.ids| == idx.engineCount
  }

  predicate AllOfWidth(vs: seq<Vector>, dim: nat)
  {
    forall v <- vs :: |v| == dim
  }

  /** `IndexBinaryFlat::<D>::new`: an empty store over an empty engine of width D. */
  function New(dim: nat): (idx: Index)
    requires dim < USIZE_LIMIT
    ensures idx.ids == [] && idx.engineCount == 0 && idx.dim == dim
    ensures dim <= I64_MAX ==> idx.dims as int == dim
    ensures Aligned(idx)
  {
    Index(dim, UsizeAsI64(dim), [], 0)
  }

  /** `add`: the engine takes one vector and the label goes to the end of `ids`. */
  function Add(idx: Index, data: Vector, id: string): (r: Index)
    requires |data| == idx.dim
    ensures |r.ids| == |idx.ids| + 1 && r.ids[..|idx.ids|] == idx.ids && r.ids[|idx.ids|] == id
    ensures r.engineCount == idx.engineCount + 1
    ensures r.dim == idx.dim && r.dims == idx.dims
    ensures Aligned(idx) ==> Aligned(r) && r.ids[idx.engineCount] == id
  {
    idx.(ids := idx.ids + [id], engineCount := idx.engineCount + 1)
  }

  /**
   * `add_all`: returns the new index and what is left of the caller's label
   * vector. An empty batch changes nothing; otherwise the engine takes every
   * vector and the caller's labels are drained onto the end of `ids`. The
   * two lengths are never compared.
   */
  function AddAll(idx: Index, data: seq<Vector>, callerIds: seq<string>): (r: (Index, seq<string>))
    requires AllOfWidth(data, idx.dim)
    ensures |data| == 0 ==> r == (idx, callerIds)
    ensures |data| > 0 ==> r.0.ids == idx.ids + callerIds && r.1 == []
    ensures |data| > 0 ==> r.0.engineCount == idx.engineCount + |data|
    ensures r.0.dim == idx.dim && r.0.dims == idx.dims
    ensures Aligned(idx) ==> (Aligned(r.0) <==> |data| == 0 || |data| == |callerIds|)
  {
    if |data| == 0 then
      (idx, callerIds)
    else
      (idx.(ids := idx.ids + callerIds, engineCount := idx.engineCount + |data|), [])
  }

  datatype BatchError = LengthMismatch(vectors: nat, labels: nat)

  datatype Checked = Accepted(index: Index, rest: seq<string>) | Rejected(error: BatchError)

  /** `add_all` with the missing guard: a batch whose label count differs from its vector count is refused. */
  function AddAllChecked(idx: Index, data: seq<Vector>, callerIds: seq<string>): (r: Checked)
    requires AllOfWidth(data, idx.dim)
    ensures r.Rejected? <==> |data| != |callerIds|
    ensures r.Accepted? ==> (r.index, r.rest) == AddAll(idx, data, callerIds)
    ensures r.Accepted? && Aligned(idx) ==> Aligned(r.index)
  {
    if |data| != |callerIds| then
      Rejected(LengthMismatch(|data|, |callerIds|))
    else
      var (i, rest) := AddAll(idx, data, callerIds);
      Accepted(i, rest)
  }

  /** A batch of one vector and no labels is accepted and breaks the store's alignment. */
  lemma UncheckedBatchBreaksAlignment()
    ensures !Aligned(AddAll(New(1), [[0]], []).0)
  {
  }

  /** One mutating call on the index. */
  datatype Mutation = AddOne(data: Vector, id: string) | AddBatch(batch: seq<Vector>, ids: seq<string>)

  predicate WellTyped(m: Mutation, dim: nat)
  {
    match m
    case AddOne(data, _) => |data| == dim
    case AddBatch(batch, _) => AllOfWidth(batch, dim)
  }

  predicate AllWellTyped(ms: seq<Mutation>, dim: nat)
  {
    forall m <- ms :: WellTyped(m, dim)
  }

  /** A batch whose vector and label counts agree. */
  predicate Balanced(m: Mutation)
  {
    m.AddBatch? ==> |m.batch| == |m.ids|
  }

  function Apply(idx: Index, m: Mutation): Index
    requires WellTyped(m, idx.dim)
  {
    match m
    case AddOne(data, id) => Add(idx, data, id)
    case AddBatch(batch, ids) => AddAll(idx, batch, ids).0
  }

  /** The index after the mutations `ms`, in order. */
  function Replay(idx: Index, ms: seq<Mutation>): Index
    requires AllWellTyped(ms, idx.dim)
    decreases |ms|
  {
    if ms == [] then idx
    else
      var next := Apply(idx, ms[0]);
      Replay(next, ms[1..])
  }

  /** Labels that one mutation puts into the store: an empty batch contributes none. */
  function LabelsOf(m: Mutation): seq<string>
  {
    match m
    case AddOne(_, id) => [id]
    case AddBatch(batch, ids) => if |batch| == 0 then [] else ids
  }

  /** Vectors that one mutation hands to the engine. */
  function VectorsOf(m: Mutation): nat
  {
    match m
    case AddOne(_, _) => 1
    case AddBatch(batch, _) => |batch|
  }

  function StoredLabels(ms: seq<Mutation>): seq<string>
  {
    if ms == [] then [] else LabelsOf(ms[0]) + StoredLabels(ms[1..])
  }

  function StoredVectors(ms: seq<Mutation>): nat
  {
    if ms == [] then 0 else VectorsOf(ms[0]) + StoredVectors(ms[1..])
  }

  /** One mutation appends its labels and hands over its vectors, leaving the width alone. */
  lemma ApplyAppends(idx: Index, m: Mutation)
    requires WellTyped(m, idx.dim)
    ensures Apply(idx, m).ids == idx.ids + LabelsOf(m)
    ensures Apply(idx, m).engineCount == idx.engineCount + VectorsOf(m)
    ensures Apply(idx, m).dim == idx.dim
  {
  }

  lemma RestWellTyped(ms: seq<Mutation>, dim: nat)
    requires ms != [] && AllWellTyped(ms, dim)
    ensures WellTyped(ms[0], dim) && AllWellTyped(ms[1..], dim)
  {
    assert ms[0] in ms;
    forall m <- ms[1..] ensures WellTyped(m, dim) {
      assert m in ms;
    }
  }

  /**
   * Append-only history: the labels after `ms` are the earlier labels
   * followed by the new ones, so the position of every earlier label is
   * stable, and the engine count grows by the vectors handed over.
   */
  lemma {:induction false} ReplayAppends(idx: Index, ms: seq<Mutation>)
    requires AllWellTyped(ms, idx.dim)
    ensures Replay(idx, ms).ids == idx.ids + StoredLabels(ms)
    ensures Replay(idx, ms).engineCount == idx.engineCount + StoredVectors(ms)
    ensures Replay(idx, ms).dim == idx.dim
    decreases |ms|
  {
    if ms != [] {
      RestWellTyped(ms, idx.dim);
      var next := Apply(idx, ms[0]);
      ApplyAppends(idx, ms[0]);
      ReplayAppends(next, ms[1..]);
      assert Replay(idx, ms) == Replay(next, ms[1..]);
      assert StoredLabels(ms) == LabelsOf(ms[0]) + StoredLabels(ms[1..]);
      assert idx.ids + StoredLabels(ms) == next.ids + StoredLabels(ms[1..]);
    }
  }

  /** From a fresh index, the label count equals the vector count exactly when the history stored as many labels as vectors. */
  lemma ReplayAlignedIff(dim: nat, ms: seq<Mutation>)
    requires dim < USIZE_LIMIT && AllWellTyped(ms, dim)
    ensures Aligned(Replay(New(dim), ms)) <==> |StoredLabels(ms)| == StoredVectors(ms)
  {
    ReplayAppends(New(dim), ms);
  }

  /** Any history made only of balanced batches keeps an aligned index aligned. */
  lemma {:induction false} BalancedHistoryKeepsAligned(idx: Index, ms: seq<Mutation>)
    requires AllWellTyped(ms, idx.dim) && Aligned(idx)
    requires forall m <- ms :: Balanced(m)
    ensures Aligned(Replay(idx, ms))
    decreases |ms|
  {
    if ms != [] {
      RestWellTyped(ms, idx.dim);
      var next := Apply(idx, ms[0]);
      assert Balanced(ms[0]);
      ApplyAppends(idx, ms[0]);
      forall m <- ms[1..] ensures Balanced(m) {
        assert m in ms;
      }
      BalancedHistoryKeepsAligned(next, ms[1..]);
    }
  }

  /** A call that stores as many labels as it hands over vectors. */
  predicate KeepsCount(m: Mutation)
  {
    |LabelsOf(m)| == VectorsOf(m)
  }

  lemma {:induction false} StoredConcat(a: seq<Mutation>, b: seq<Mutation>)
    ensures StoredLabels(a + b) == StoredLabels(a) + StoredLabels(b)
    ensures StoredVectors(a + b) == StoredVectors(a) + StoredVectors(b)
    decreases |a|
  {
    if a == [] {
      assert a + b == b;
    } else {
      assert (a + b)[0] == a[0] && (a + b)[1..] == a[1..] + b;
      StoredConcat(a[1..], b);
    }
  }

  /** Extending a history prefix by one call adds exactly that call's labels and vectors. */
  lemma PrefixStep(ms: seq<Mutation>, i: nat)
    requires i < |ms|
    ensures |StoredLabels(ms[..i + 1])| == |StoredLabels(ms[..i])| + |LabelsOf(ms[i])|
    ensures StoredVectors(ms[..i + 1]) == StoredVectors(ms[..i]) + VectorsOf(ms[i])
  {
    assert ms[..i + 1] == ms[..i] + [ms[i]];
    StoredConcat(ms[..i], [ms[i]]);
    assert StoredLabels([ms[i]]) == LabelsOf(ms[i]) + StoredLabels([]);
  }

  lemma {:induction false} CountKeptOnEveryPrefix(ms: seq<Mutation>, i: nat)
    requires forall m <- ms :: KeepsCount(m)
    requires i <= |ms|
    ensures |StoredLabels(ms[..i])| == StoredVectors(ms[..i])
    decreases i
  {
    if i == 0 {
      assert ms[..0] == [];
    } else {
      CountKeptOnEveryPrefix(ms, i - 1);
      PrefixStep(ms, i - 1);
      assert ms[i - 1] in ms;
    }
  }

  /**
   * From a fresh index, the counts agree after every prefix of the history
   * exactly when every call was a single `add`, a batch with as many labels
   * as vectors, or an empty batch. That condition guarantees each label
   * lands at the position of the vector it was supplied with. It is not
   * necessary for that: a short batch that no labelled call follows shifts
   * nothing, though the counts then disagree.
   */
  lemma EveryPrefixAlignedIff(dim: nat, ms: seq<Mutation>)
    requires dim < USIZE_LIMIT && AllWellTyped(ms, dim)
    ensures (forall i :: 0 <= i <= |ms| ==> Aligned(Replay(New(dim), ms[..i])))
            <==> (forall m <- ms :: Balanced(m) || (m.AddBatch? && m.batch == []))
  {
    var start := New(dim);
    forall i | 0 <= i <= |ms|
      ensures Aligned(Replay(start, ms[..i])) <==> |StoredLabels(ms[..i])| == StoredVectors(ms[..i])
    {
      ReplayAppends(start, ms[..i]);
    }
    if forall m <- ms :: Balanced(m) || (m.AddBatch? && m.batch == []) {
      forall i | 0 <= i <= |ms| ensures |StoredLabels(ms[..i])| == StoredVectors(ms[..i]) {
        CountKeptOnEveryPrefix(ms, i);
      }
    }
    if forall i :: 0 <= i <= |ms| ==> Aligned(Replay(start, ms[..i])) {
      forall m <- ms ensures Balanced(m) || (m.AddBatch? && m.batch == []) {
        var i :| 0 <= i < |ms| && ms[i] == m;
        PrefixStep(ms, i);
        assert Aligned(Replay(start, ms[..i])) && Aligned(Replay(start, ms[..i + 1]));
      }
    }
  }

  /**
   * One unbalanced batch, then one that restores the count: the final count
   * agrees, yet "x", supplied with the vector at engine position 1, sits at
   * label position 0.
   */
  lemma ShiftedButCounted()
    ensures Aligned(Replay(New(1), [AddBatch([[0]], []), AddBatch([[1]], ["x", "y"])]))
    ensures !Aligned(Replay(New(1), [AddBatch([[0]], []), AddBatch([[1]], ["x", "y"])][..1]))
    ensures Replay(New(1), [AddBatch([[0]], []), AddBatch([[1]], ["x", "y"])]).ids == ["x", "y"]
  {
    var ms := [AddBatch([[0]], []), AddBatch([[1]], ["x", "y"])];
    ReplayAppends(New(1), ms);
    ReplayAppends(New(1), ms[..1]);
    assert StoredLabels(ms) == ["x", "y"] by {
      assert ms[1..] == [ms[1]];
      assert StoredLabels(ms[1..]) == ["x", "y"] + StoredLabels([]);
    }
  }

  /**
   * A short final batch: the counts disagree, yet "x" sits at position 0,
   * where the vector it came with went. Every-prefix alignment is therefore
   * sufficient for labels to sit at their vectors' positions, not necessary.
   */
  lemma ShortLastBatchShiftsNothing()
    ensures Replay(New(1), [AddBatch([[0], [1]], ["x"])]).ids == ["x"]
    ensures Replay(New(1), [AddBatch([[0], [1]], ["x"])]).engineCount == 2
    ensures !Aligned(Replay(New(1), [AddBatch([[0], [1]], ["x"])]))
  {
    var ms := [AddBatch([[0], [1]], ["x"])];
    ReplayAppends(New(1), ms);
    assert ms[1..] == [];
    assert StoredLabels(ms) == ["x"] + StoredLabels([]);
  }

  /** Label j of call i sits in the stored labels right after those of the calls before it. */
  lemma CallLabelsInStore(ms: seq<Mutation>, i: nat, j: nat)
    requires i < |ms| && j < |LabelsOf(ms[i])|
    ensures |StoredLabels(ms[..i])| + j < |StoredLabels(ms)|
    ensures StoredLabels(ms)[|StoredLabels(ms[..i])| + j] == LabelsOf(ms[i])[j]
  {
    assert ms[..i + 1] == ms[..i] + [ms[i]];
    StoredConcat(ms[..i], [ms[i]]);
    assert StoredLabels([ms[i]]) == LabelsOf(ms[i]) + StoredLabels([]);
    assert ms == ms[..i + 1] + ms[i + 1..];
    StoredConcat(ms[..i + 1], ms[i + 1..]);
    assert StoredLabels(ms) == StoredLabels(ms[..i]) + LabelsOf(ms[i]) + StoredLabels(ms[i + 1..]);
  }

  /**
   * From a fresh index whose counts agree after every prefix, label j of
   * call i sits at the engine position that call's vector j received: the
   * engine count before call i, plus j.
   */
  lemma EveryPrefixAlignedPutsLabelsAtTheirVectors(dim: nat, ms: seq<Mutation>, i: nat, j: nat)
    requires dim < USIZE_LIMIT && AllWellTyped(ms, dim)
    requires forall p :: 0 <= p <= |ms| ==> Aligned(Replay(New(dim), ms[..p]))
    requires i < |ms| && j < VectorsOf(ms[i])
    ensures Replay(New(dim), ms[..i]).engineCount + j < |Replay(New(dim), ms).ids|
    ensures j < |LabelsOf(ms[i])|
    ensures Replay(New(dim), ms).ids[Replay(New(dim), ms[..i]).engineCount + j] == LabelsOf(ms[i])[j]
  {
    var start := New(dim);
    assert Aligned(Replay(start, ms[..i]));
    assert Aligned(Replay(start, ms[..i + 1]));
    ReplayAppends(start, ms[..i]);
    ReplayAppends(start, ms[..i + 1]);
    ReplayAppends(start, ms);
    PrefixStep(ms, i);
    CallLabelsInStore(ms, i, j);
  }
}

=== FILE: flat_search.dfy ===
/**
 * `IndexBinaryFlat::search`: the engine fills two flat buffers of length
 * `k * n` (n = number of queries), which the wrapper copies into an n x k
 * grid of records, taking a label from `ids` for each. The engine's answer is
 * a parameter: any pair of buffers of that length.
 */
module FlatSearch {
  import opened Native
  import opened Grid
  import opened SearchResult
  import opened BinaryFlat

  /** The wrapper's copy loop never indexes out of bounds: `(n-1)*n + k-1` is the largest slot it reads. */
  predicate AccessesInBounds(n: nat, k: nat, idsLen: nat)
  {
    k * n == 0 || (n <= k && (n - 1) * n + k - 1 < idsLen)
  }

  /** The search returns instead of panicking: there is a slot 0 to hand the engine, and every read is in bounds. */
  predicate SearchPanicFree(n: nat, k: nat, idsLen: nat)
  {
    k * n > 0 && AccessesInBounds(n, k, idsLen)
  }

  /** With stride n, the last slot read fits in the k*n buffers exactly when there are no more queries than k. */
  lemma StrideNFitsIff(n: nat, k: nat)
    requires n >= 1 && k >= 1
    ensures (n - 1) * n + k - 1 < k * n <==> n <= k
  {
    assert (n - 1) * n + k - 1 - k * n == (n - 1) * (n - k) - 1;
    if n <= k {
      assert (n - 1) * (k - n) >= 0;
    } else {
      MulMonotone(1, n - 1, n - k);
    }
  }

  /** Every slot the copy loop reads is at most the one it reads last. */
  lemma LastSlotIsLargest(r: nat, rk: nat, n: nat, k: nat)
    requires r < n && rk < k
    ensures Slot(r, n, rk) <= (n - 1) * n + k - 1
  {
    MulMonotone(r, n - 1, n);
  }

  /**
   * The reads `distances[r*n+rk]`, `indexes[r*n+rk]` and `ids[r*n+rk]` are
   * all in bounds for every row and rank exactly when the closed-form
   * condition holds.
   */
  lemma AsWrittenReadsInBoundsIff(n: nat, k: nat, idsLen: nat)
    ensures (forall r, rk :: 0 <= r < n && 0 <= rk < k ==> Slot(r, n, rk) < k * n && Slot(r, n, rk) < idsLen)
            <==> AccessesInBounds(n, k, idsLen)
  {
    if k * n > 0 {
      StrideNFitsIff(n, k);
      if AccessesInBounds(n, k, idsLen) {
        forall r, rk | 0 <= r < n && 0 <= rk < k
          ensures Slot(r, n, rk) < k * n && Slot(r, n, rk) < idsLen
        {
          LastSlotIsLargest(r, rk, n, k);
        }
      } else {
        assert !(Slot(n - 1, n, k - 1) < k * n && Slot(n - 1, n, k - 1) < idsLen);
      }
    }
  }

  /** Record `e` is the copy of flat slot `s` of the engine buffers, labelled with `ids[s]`. */
  predicate CopiedFromSlot(e: QueryResult, s: nat, engineDistances: seq<i32>, engineIndexes: seq<i64>, ids: seq<string>)
  {
    && s < |engineDistances| && s < |engineIndexes| && s < |ids|
    && e == QueryResult(engineDistances[s], engineIndexes[s], ids[s])
  }

  /** Row `row` is the copy of the `|row|` slots starting at row `r` with stride `n`. */
  predicate RowCopied(row: seq<QueryResult>, r: nat, n: nat, engineDistances: seq<i32>, engineIndexes: seq<i64>, ids: seq<string>)
  {
    forall rk :: 0 <= rk < |row| ==> CopiedFromSlot(row[rk], Slot(r, n, rk), engineDistances, engineIndexes, ids)
  }

  /**
   * The search exactly as written: rows are read with stride `n` (the query
   * count) and the label is `ids` at the flat slot, not at the position the
   * engine returned. It panics on the first out-of-bounds index, including
   * `&mut distances[0]` on an empty buffer.
   */
  method Search(idx: Index, queries: seq<Vector>, k: nat, engineDistances: seq<i32>, engineIndexes: seq<i64>)
    returns (out: Outcome<seq<seq<QueryResult>>>)
    requires AllOfWidth(queries, idx.dim)
    requires |engineDistances| == k * |queries| && |engineIndexes| == k * |queries|
    ensures out.Returned? <==> SearchPanicFree(|queries|, k, |idx.ids|)
    ensures out.Panicked? ==> out.panic.index >= out.panic.len
    ensures out.Returned? ==> HasShape(out.value, |queries|, k)
    ensures out.Returned? ==> forall r :: 0 <= r < |queries| ==>
      RowCopied(out.value[r], r, |queries|, engineDistances, engineIndexes, idx.ids)
  {
    var n := |queries|;
    var result := NewSearchResult(k, n);
    if k * n == 0 {
      return Panicked(IndexOutOfBounds(0, 0));
    }
    var r := 0;
    while r < n
      invariant 0 <= r <= n
      invariant HasShape(result, n, k)
      invariant forall r' :: 0 <= r' < r ==> RowCopied(result[r'], r', n, engineDistances, engineIndexes, idx.ids)
    {
      var row := result[r];
      var rk := 0;
      while rk < k
        invariant 0 <= rk <= k
        invariant |row| == k
        invariant forall c :: 0 <= c < rk ==>
          CopiedFromSlot(row[c], Slot(r, n, c), engineDistances, engineIndexes, idx.ids)
      {
        var s := r * n + rk;
        if s >= |engineDistances| || s >= |idx.ids| {
          if SearchPanicFree(n, k, |idx.ids|) {
            LastSlotIsLargest(r, rk, n, k);
            StrideNFitsIff(n, k);
            assert false;
          }
          if s >= |engineDistances| {
            return Panicked(IndexOutOfBounds(s, |engineDistances|));
          }
          return Panicked(IndexOutOfBounds(s, |idx.ids|));
        }
        row := row[rk := QueryResult(engineDistances[s], engineIndexes[s], idx.ids[s])];
        rk := rk + 1;
      }
      result := result[r := row];
      r := r + 1;
    }
    assert RowCopied(result[n - 1], n - 1, n, engineDistances, engineIndexes, idx.ids);
    assert CopiedFromSlot(result[n - 1][k - 1], Slot(n - 1, n, k - 1), engineDistances, engineIndexes, idx.ids);
    StrideNFitsIff(n, k);
    out := Returned(result);
  }

  /** The label of engine position `index`, or the empty label for the engine's -1 "no result". */
  function LabelAt(ids: seq<string>, index: i64): (name: string)
    ensures 0 <= index as int < |ids| ==> name == ids[index]
    ensures !(0 <= index as int < |ids|) ==> name == ""
  {
    if 0 <= index as int < |ids| then ids[index] else ""
  }

  /**
   * The result builder as evidently intended: row r, rank rk comes from slot
   * `r*k + rk`, and its label is the one stored for the position the engine
   * returned. With no queries or k == 0 there is nothing to read.
   */
  function BuildResults(ids: seq<string>, n: nat, k: nat, engineDistances: seq<i32>, engineIndexes: seq<i64>)
    : (rows: seq<seq<QueryResult>>)
    requires |engineDistances| == k * n && |engineIndexes| == k * n
    ensures GridFits(|engineDistances|, n, k)
    ensures HasShape(rows, n, k)
    ensures forall r, rk :: 0 <= r < n && 0 <= rk < k ==>
      rows[r][rk].distance == engineDistances[Slot(r, k, rk)] && rows[r][rk].index == engineIndexes[Slot(r, k, rk)]
    ensures forall r, rk :: 0 <= r < n && 0 <= rk < k ==>
      (0 <= rows[r][rk].index as int < |ids| ==> rows[r][rk].id == ids[rows[r][rk].index])
    ensures forall r, rk :: 0 <= r < n && 0 <= rk < k ==>
      (!(0 <= rows[r][rk].index as int < |ids|) ==> rows[r][rk].id == "")
  {
    GridFitsIff(k * n, n, k);
    seq(n, r requires 0 <= r < n =>
      seq(k, rk requires 0 <= rk < k =>
        QueryResult(engineDistances[Slot(r, k, rk)], engineIndexes[Slot(r, k, rk)],
                    LabelAt(ids, engineIndexes[Slot(r, k, rk)]))))
  }

  /** The corrected layout reads every engine slot, each for exactly one (row, rank). */
  lemma StrideKReadsEverySlotOnce(n: nat, k: nat, i: nat)
    requires i < k * n
    ensures 0 < k && i / k < n && Slot(i / k, k, i % k) == i
    ensures forall r, rk :: 0 <= r < n && 0 <= rk < k && Slot(r, k, rk) == i ==> r == i / k && rk == i % k
  {
    SlotCovers(i, n, k);
    forall r, rk | 0 <= r < n && 0 <= rk < k && Slot(r, k, rk) == i
      ensures r == i / k && rk == i % k
    {
      if r < i / k {
        SlotOrder(r, rk, i / k, i % k, k);
      } else if r > i / k {
        SlotOrder(i / k, i % k, r, rk, k);
      }
    }
  }

  /** An engine that found nothing (all -1) yields the all-sentinel grid the wrapper allocates first. */
  lemma UnfilledBuffersGiveSentinels(ids: seq<string>, n: nat, k: nat)
    ensures BuildResults(ids, n, k, seq(k * n, _ => -1), seq(k * n, _ => -1)) == NewSearchResult(k, n)
  {
    var rows := BuildResults(ids, n, k, seq(k * n, _ => -1), seq(k * n, _ => -1));
    var initial := NewSearchResult(k, n);
    forall r | 0 <= r < n ensures rows[r] == initial[r] {
      forall rk | 0 <= rk < k ensures rows[r][rk] == initial[r][rk] {
        assert IsSentinel(rows[r][rk]);
      }
    }
  }

  /** Labels "a", "b", "c" at positions 0, 1, 2 of a one-byte-wide index. */
  function ThreeEntryIndex(): (idx: Index)
    ensures idx.ids == ["a", "b", "c"] && idx.dim == 1 && Aligned(idx)
  {
    Index(1, 1, ["a", "b", "c"], 3)
  }

  /** That index is what one `add_all` of vectors 0x00, 0xFF, 0xF0 with labels "a", "b", "c" builds. */
  lemma ThreeEntryIndexIsOneBatch()
    ensures AddAll(New(1), [[0x00], [0xFF], [0xF0]], ["a", "b", "c"]) == (ThreeEntryIndex(), [])
  {
    assert UsizeAsI64(1) == 1;
    assert [] + ["a", "b", "c"] == ["a", "b", "c"];
  }

  /**
   * Query 0x00 at k = 2 against that index: the engine answers distances
   * [0, 4] at positions [0, 2]. As written, the second record carries
   * position 2 but the label "b" of slot 1, not "c".
   */
  method SlotLabelMismatch() returns (out: Outcome<seq<seq<QueryResult>>>)
    ensures out.Returned? && |out.value| == 1 && |out.value[0]| == 2
    ensures out.Returned? && out.value[0][1].index == 2 && out.value[0][1].id == "b"
  {
    var idx := ThreeEntryIndex();
    var query: seq<Vector> := [[0x00]];
    var distances: seq<i32> := [0, 4];
    var indexes: seq<i64> := [0, 2];
    assert AllOfWidth(query, idx.dim);
    out := Search(idx, query, 2, distances, indexes);
    assert SearchPanicFree(1, 2, 3);
    assert HasShape(out.value, 1, 2);
    assert RowCopied(out.value[0], 0, 1, distances, indexes, idx.ids);
    assert CopiedFromSlot(out.value[0][1], Slot(0, 1, 1), distances, indexes, idx.ids);
    assert Slot(0, 1, 1) == 1;
  }

  /** The corrected builder labels the same record "c". */
  lemma BuilderLabelsByPosition()
    ensures BuildResults(ThreeEntryIndex().ids, 1, 2, [0, 4], [0, 2])[0][1] == QueryResult(4, 2, "c")
  {
    assert Slot(0, 2, 1) == 1;
  }

  /** Two queries at k = 1: the buffers hold 2 slots, yet as written row 1 reads slot 2 and panics. */
  method StrideOverrun() returns (out: Outcome<seq<seq<QueryResult>>>)
    ensures out.Panicked?
  {
    var idx := ThreeEntryIndex();
    out := Search(idx, [[0x00], [0xFF]], 1, [0, 0], [0, 1]);
  }

  /** A search with no queries panics as written, at `&mut distances[0]`. */
  method EmptySearchPanics() returns (out: Outcome<seq<seq<QueryResult>>>)
    ensures out.Panicked?
  {
    var idx := ThreeEntryIndex();
    out := Search(idx, [], 5, [], []);
  }

  /** As written, n queries at more ranks than there are labels always panic: row 0 already reads `ids[k-1]`. */
  lemma MoreRanksThanLabelsPanics(n: nat, k: nat, idsLen: nat)
    requires n >= 1 && k > idsLen
    ensures !SearchPanicFree(n, k, idsLen)
  {
    MulMonotone(0, n - 1, n);
  }

  /**
   * As written, a record the engine left unfilled (distance -1, position -1)
   * is not the sentinel: it takes the label stored at its flat slot.
   */
  method PaddingIsNotSentinel() returns (out: Outcome<seq<seq<QueryResult>>>)
    ensures out.Returned? && |out.value| == 1 && |out.value[0]| == 2
    ensures out.Returned? && out.value[0][0] == QueryResult(-1, -1, "a") && !IsSentinel(out.value[0][0])
  {
    var idx := ThreeEntryIndex();
    var query: seq<Vector> := [[0x00]];
    var distances: seq<i32> := [-1, -1];
    var indexes: seq<i64> := [-1, -1];
    assert AllOfWidth(query, idx.dim);
    out := Search(idx, query, 2, distances, indexes);
    assert SearchPanicFree(1, 2, 3);
    assert HasShape(out.value, 1, 2);
    assert RowCopied(out.value[0], 0, 1, distances, indexes, idx.ids);
    assert CopiedFromSlot(out.value[0][0], Slot(0, 1, 0), distances, indexes, idx.ids);
    assert Slot(0, 1, 0) == 0;
  }

  /** The corrected builder gives the same unfilled record the sentinel. */
  lemma BuilderPadsWithSentinel()
    ensures IsSentinel(BuildResults(ThreeEntryIndex().ids, 1, 2, [-1, -1], [-1, -1])[0][0])
  {
    var unfilled: seq<i32> := seq(2, _ => -1);
    var unfilledIndexes: seq<i64> := seq(2, _ => -1);
    assert unfilled == [-1, -1] && unfilledIndexes == [-1, -1];
    UnfilledBuffersGiveSentinels(ThreeEntryIndex().ids, 1, 2);
  }

  /**
   * Query 0x00 at k = 4 over three labels: the engine finds two hits and
   * pads with -1, yet as written the copy reads `ids[3]` and panics.
   */
  method ShortStoreOverrun() returns (out: Outcome<seq<seq<QueryResult>>>)
    ensures out.Panicked?
  {
    var idx := ThreeEntryIndex();
    out := Search(idx, [[0x00]], 4, [0, 4, -1, -1], [0, 2, -1, -1]);
  }
}

=== FILE: grid.dfy ===
/** Row-major addressing of the flat per-query, per-rank buffers shared with the search engine. */
module Grid {

  /** Flat position of column `col` of row `row` when consecutive rows are `stride` slots apart. */
  function Slot(row: nat, stride: nat, col: nat): nat
  {
    row * stride + col
  }

  /** Every cell of a `rows` x `cols` grid, laid out with stride `cols`, lies inside a buffer of length `len`. */
  ghost predicate GridFits(len: nat, rows: nat, cols: nat)
  {
    forall r, c :: 0 <= r < rows && 0 <= c < cols ==> Slot(r, cols, c) < len
  }

  lemma MulMonotone(a: nat, b: nat, c: nat)
    requires a <= b
    ensures a * c <= b * c
  {
    assert b * c == a * c + (b - a) * c;
  }

  /** Cells of an earlier row come strictly before every cell of a later row. */
  lemma SlotOrder(r1: nat, c1: nat, r2: nat, c2: nat, stride: nat)
    requires r1 < r2 && c1 < stride
    ensures Slot(r1, stride, c1) < Slot(r2, stride, c2)
  {
    MulMonotone(r1 + 1, r2, stride);
    assert (r1 + 1) * stride == r1 * stride + stride;
  }

  /** A buffer holds a `rows` x `cols` grid exactly when it is at least `rows * cols` long. */
  lemma GridFitsIff(len: nat, rows: nat, cols: nat)
    ensures GridFits(len, rows, cols) <==> rows == 0 || cols == 0 || rows * cols <= len
  {
    if rows > 0 && cols > 0 {
      if GridFits(len, rows, cols) {
        assert Slot(rows - 1, cols, cols - 1) < len;
        assert (rows - 1) * cols + cols == rows * cols;
      }
      if rows * cols <= len {
        forall r, c | 0 <= r < rows && 0 <= c < cols
          ensures Slot(r, cols, c) < len
        {
          SlotOrder(r, c, rows, 0, cols);
          assert Slot(rows, cols, 0) == rows * cols;
        }
      }
    }
  }

  /** Every slot below `rows * cols` is the cell (i / cols, i % cols) of the grid: the layout misses nothing. */
  lemma SlotCovers(i: nat, rows: nat, cols: nat)
    requires i < rows * cols
    ensures cols > 0 && i / cols < rows && Slot(i / cols, cols, i % cols) == i
  {
    assert cols > 0;
    if i / cols >= rows {
      MulMonotone(rows, i / cols, cols);
    }
  }
}

=== FILE: native.dfy ===
/** Machine integer widths and Rust's panic outcome, as used by the wrapper and its C++ glue. */
module Native {

  /** 2^64: one more than the largest `usize` / `size_t`. */
  const USIZE_LIMIT: int := 0x1_0000_0000_0000_0000
  const I64_MAX: int := 0x7FFF_FFFF_FFFF_FFFF

  newtype u8 = x: int | 0 <= x < 0x100
  newtype i32 = x: int | -0x8000_0000 <= x < 0x8000_0000
  newtype i64 = x: int | -0x8000_0000_0000_0000 <= x <= 0x7FFF_FFFF_FFFF_FFFF

  /** Rust's `x as i64` on a `usize`: keep the low 64 bits and read them as two's complement. */
  function UsizeAsI64(x: nat): (r: i64)
    requires x < USIZE_LIMIT
    ensures (r as int) % USIZE_LIMIT == x
    ensures x <= I64_MAX <==> r >= 0
  {
    if x <= I64_MAX then x as i64 else (x - USIZE_LIMIT) as i64
  }

  function Min(a: int, b: int): int
  {
    if a <= b then a else b
  }

  /** Why a Rust call aborted: indexing a vector of length `len` at `index`. */
  datatype Panic = IndexOutOfBounds(index: nat, len: nat)

  /** A Rust call either returns a value or panics. */
  datatype Outcome<+T> = Returned(value: T) | Panicked(panic: Panic)
}

=== FILE: range_compaction.dfy ===
/**
 * `index_binary_multi_hash_range_search`: the engine's range search yields a
 * CSR-style result (query q's hits are entries `lims[q] .. lims[q+1]` of
 * `distances`/`labels`), which the glue copies into caller buffers laid out
 * with stride k, recording a per-query count in `sizes`. The engine's result
 * is a parameter; the caller's buffers are given by their contents on entry,
 * and each in-place write becomes a sequence update.
 */
module MultiHashRange {
  import opened Native
  import opened Grid

  /** One past the last hit of query q that is used: at most k hits from `lims[q]`. */
  function WindowEnd(lims: seq<nat>, q: nat, k: nat): nat
    requires q + 1 < |lims|
  {
    Min(lims[q + 1], lims[q] + k)
  }

  /** How many hits of query q fall in the capped window `[lims[q], WindowEnd)`. */
  function WindowLength(lims: seq<nat>, q: nat, k: nat): (len: nat)
    requires q + 1 < |lims|
    ensures len <= k
    ensures lims[q] + len <= lims[q + 1] || len == 0
    ensures lims[q] <= lims[q + 1] ==> len == Min(lims[q + 1] - lims[q], k)
    ensures len > 0 <==> lims[q] < lims[q + 1] && k > 0
  {
    if WindowEnd(lims, q, k) > lims[q] then WindowEnd(lims, q, k) - lims[q] else 0
  }

  /** Where hit j of query q sits in the engine's result arrays. */
  function HitOffset(lims: seq<nat>, q: nat, j: nat): nat
    requires q < |lims|
  {
    lims[q] + j
  }

  /** Every window end the loop can reach lies inside the result arrays. */
  predicate ReadsInBounds(lims: seq<nat>, resultLen: nat)
  {
    forall i :: 1 <= i < |lims| ==> lims[i] <= resultLen
  }

  predicate NonDecreasing(lims: seq<nat>)
  {
    forall i :: 0 <= i < |lims| - 1 ==> lims[i] <= lims[i + 1]
  }

  /** The engine's own guarantee (offsets non-decreasing, the last one the total) keeps every read in bounds. */
  lemma {:induction false} SortedLimsReadInBounds(lims: seq<nat>, resultLen: nat)
    requires |lims| > 0 && NonDecreasing(lims) && lims[|lims| - 1] <= resultLen
    ensures ReadsInBounds(lims, resultLen)
    decreases |lims|
  {
    if |lims| > 1 {
      var prefix := lims[..|lims| - 1];
      assert lims[|lims| - 2] <= lims[|lims| - 1];
      assert NonDecreasing(prefix) by {
        forall i | 0 <= i < |prefix| - 1 ensures prefix[i] <= prefix[i + 1] {
          assert prefix[i] == lims[i] && prefix[i + 1] == lims[i + 1];
        }
      }
      SortedLimsReadInBounds(prefix, resultLen);
      forall i | 1 <= i < |lims| ensures lims[i] <= resultLen {
        if i < |lims| - 1 {
          assert lims[i] == prefix[i];
        }
      }
    }
  }

  /** Slot i is the first slot of the row of some query q < m whose window is non-empty. */
  predicate HeadWritten(i: nat, m: nat, k: nat, lims: seq<nat>)
    requires m < |lims|
  {
    exists q :: 0 <= q < m && WindowLength(lims, q, k) > 0 && i == Slot(q, k, 0)
  }

  /**
   * The copy loop exactly as written: for every hit in the window it
   * overwrites the same slot `q*k`, so the row ends up holding only the
   * window's last hit, and `sizes[q]` is set only inside that loop.
   */
  method RangeSearchCompact(n: nat, k: nat, lims: seq<nat>, resultDistances: seq<i32>, resultLabels: seq<i64>,
                            distancesIn: seq<i32>, labelsIn: seq<i64>, sizesIn: seq<i64>)
    returns (distances: seq<i32>, labels: seq<i64>, sizes: seq<i64>)
    requires |lims| == n + 1
    requires |resultLabels| == |resultDistances| && ReadsInBounds(lims, |resultDistances|)
    requires k <= I64_MAX
    requires GridFits(|distancesIn|, n, k) && GridFits(|labelsIn|, n, k) && n <= |sizesIn|
    ensures |distances| == |distancesIn| && |labels| == |labelsIn| && |sizes| == |sizesIn|
    ensures forall q :: 0 <= q < n && WindowLength(lims, q, k) > 0 ==>
      && sizes[q] as int == WindowLength(lims, q, k)
      && distances[Slot(q, k, 0)] == resultDistances[HitOffset(lims, q, WindowLength(lims, q, k) - 1)]
      && labels[Slot(q, k, 0)] == resultLabels[HitOffset(lims, q, WindowLength(lims, q, k) - 1)]
    ensures forall i :: 0 <= i < |distances| && !HeadWritten(i, n, k, lims) ==> distances[i] == distancesIn[i]
    ensures forall i :: 0 <= i < |labels| && !HeadWritten(i, n, k, lims) ==> labels[i] == labelsIn[i]
    ensures forall q :: 0 <= q < |sizes| && !(q < n && WindowLength(lims, q, k) > 0) ==> sizes[q] == sizesIn[q]
  {
    distances, labels, sizes := distancesIn, labelsIn, sizesIn;
    var q := 0;
    while q < n
      invariant 0 <= q <= n
      invariant |distances| == |distancesIn| && |labels| == |labelsIn| && |sizes| == |sizesIn|
      invariant forall p :: 0 <= p < q && WindowLength(lims, p, k) > 0 ==>
        && sizes[p] as int == WindowLength(lims, p, k)
        && distances[Slot(p, k, 0)] == resultDistances[HitOffset(lims, p, WindowLength(lims, p, k) - 1)]
        && labels[Slot(p, k, 0)] == resultLabels[HitOffset(lims, p, WindowLength(lims, p, k) - 1)]
      invariant forall i :: 0 <= i < |distances| && !HeadWritten(i, q, k, lims) ==> distances[i] == distancesIn[i]
      invariant forall i :: 0 <= i < |labels| && !HeadWritten(i, q, k, lims) ==> labels[i] == labelsIn[i]
      invariant forall p :: 0 <= p < |sizes| && !(p < q && WindowLength(lims, p, k) > 0) ==> sizes[p] == sizesIn[p]
    {
      var begin := lims[q];
      var end := WindowEnd(lims, q, k);
      ghost var before := (distances, labels, sizes);
      var offset := begin;
      while offset < end
        invariant offset == begin || begin < offset <= end
        invariant offset == begin ==> (distances, labels, sizes) == before
        invariant offset > begin ==>
          && distances == before.0[Slot(q, k, 0) := resultDistances[offset - 1]]
          && labels == before.1[Slot(q, k, 0) := resultLabels[offset - 1]]
          && sizes == before.2[q := (end - begin) as i64]
      {
        assert Slot(q, k, 0) == q * k < |distances|;
        distances := distances[q * k := resultDistances[offset]];
        labels := labels[q * k := resultLabels[offset]];
        sizes := sizes[q := Min(end - begin, k) as i64];
        offset := offset + 1;
      }
      forall p | 0 <= p < q && WindowLength(lims, p, k) > 0
        ensures Slot(p, k, 0) < Slot(q, k, 0)
      {
        SlotOrder(p, 0, q, 0, k);
      }
      q := q + 1;
    }
  }

  /** Slot i is one of the first m slots of query q's row. */
  predicate InRowPrefix(i: nat, q: nat, k: nat, m: int)
  {
    exists j :: 0 <= j < m && i == Slot(q, k, j)
  }

  /** Slot i holds hit j of some query q < m: j is below that query's window length. */
  predicate HitWritten(i: nat, m: nat, k: nat, lims: seq<nat>)
    requires m < |lims|
  {
    exists q, j :: 0 <= q < m && 0 <= j < WindowLength(lims, q, k) && i == Slot(q, k, j)
  }

  /** The written slots of the first q + 1 queries are those of the first q plus the prefix of row q. */
  lemma HitWrittenStep(i: nat, q: nat, k: nat, lims: seq<nat>)
    requires q + 1 < |lims|
    ensures HitWritten(i, q + 1, k, lims) <==> HitWritten(i, q, k, lims) || InRowPrefix(i, q, k, WindowLength(lims, q, k))
  {
    if InRowPrefix(i, q, k, WindowLength(lims, q, k)) {
      var j :| 0 <= j < WindowLength(lims, q, k) && i == Slot(q, k, j);
      assert HitWritten(i, q + 1, k, lims);
    }
    if HitWritten(i, q + 1, k, lims) {
      var p, j :| 0 <= p < q + 1 && 0 <= j < WindowLength(lims, p, k) && i == Slot(p, k, j);
      if p < q {
        assert HitWritten(i, q, k, lims);
      } else {
        assert InRowPrefix(i, q, k, WindowLength(lims, q, k));
      }
    }
  }

  /**
   * Hits `lims[q] .. WindowEnd` of query q copied, in order, to the first
   * slots of row q (stride k); every other slot keeps its value.
   */
  method CopyWindow(q: nat, k: nat, lims: seq<nat>, resultDistances: seq<i32>, resultLabels: seq<i64>,
                    distancesIn: seq<i32>, labelsIn: seq<i64>)
    returns (distances: seq<i32>, labels: seq<i64>)
    requires q + 1 < |lims|
    requires |resultLabels| == |resultDistances| && ReadsInBounds(lims, |resultDistances|)
    requires forall c :: 0 <= c < k ==> Slot(q, k, c) < |distancesIn| && Slot(q, k, c) < |labelsIn|
    ensures |distances| == |distancesIn| && |labels| == |labelsIn|
    ensures forall j :: 0 <= j < WindowLength(lims, q, k) ==>
      distances[Slot(q, k, j)] == resultDistances[HitOffset(lims, q, j)] && labels[Slot(q, k, j)] == resultLabels[HitOffset(lims, q, j)]
    ensures forall i :: 0 <= i < |distances| && !InRowPrefix(i, q, k, WindowLength(lims, q, k)) ==> distances[i] == distancesIn[i]
    ensures forall i :: 0 <= i < |labels| && !InRowPrefix(i, q, k, WindowLength(lims, q, k)) ==> labels[i] == labelsIn[i]
  {
    distances, labels := distancesIn, labelsIn;
    var begin := lims[q];
    var end := WindowEnd(lims, q, k);
    var offset := begin;
    while offset < end
      invariant offset == begin || begin < offset <= end
      invariant |distances| == |distancesIn| && |labels| == |labelsIn|
      invariant forall j :: 0 <= j < offset - begin ==>
        distances[Slot(q, k, j)] == resultDistances[HitOffset(lims, q, j)] && labels[Slot(q, k, j)] == resultLabels[HitOffset(lims, q, j)]
      invariant forall i :: 0 <= i < |distances| && !InRowPrefix(i, q, k, offset - begin) ==> distances[i] == distancesIn[i]
      invariant forall i :: 0 <= i < |labels| && !InRowPrefix(i, q, k, offset - begin) ==> labels[i] == labelsIn[i]
    {
      var slot := Slot(q, k, offset - begin);
      distances := distances[slot := resultDistances[offset]];
      labels := labels[slot := resultLabels[offset]];
      offset := offset + 1;
      var filled := offset - begin;
      forall i | 0 <= i < |distances| && InRowPrefix(i, q, k, filled) && i != slot
        ensures InRowPrefix(i, q, k, filled - 1)
      {
        var j :| 0 <= j < filled && i == Slot(q, k, j);
        assert j != filled - 1;
      }
    }
  }

  /**
   * The copy loop as evidently intended: hit j of the window goes to slot
   * `q*k + j`, and `sizes[q]` is the window length for every query, 0 for an
   * empty one.
   */
  method RangeSearchCompactFixed(n: nat, k: nat, lims: seq<nat>, resultDistances: seq<i32>, resultLabels: seq<i64>,
                                 distancesIn: seq<i32>, labelsIn: seq<i64>, sizesIn: seq<i64>)
    returns (distances: seq<i32>, labels: seq<i64>, sizes: seq<i64>)
    requires |lims| == n + 1
    requires |resultLabels| == |resultDistances| && ReadsInBounds(lims, |resultDistances|)
    requires k <= I64_MAX
    requires GridFits(|distancesIn|, n, k) && GridFits(|labelsIn|, n, k) && n <= |sizesIn|
    ensures |distances| == |distancesIn| && |labels| == |labelsIn| && |sizes| == |sizesIn|
    ensures forall q :: 0 <= q < n ==> sizes[q] as int == WindowLength(lims, q, k)
    ensures forall q, j :: 0 <= q < n && 0 <= j < WindowLength(lims, q, k) ==>
      distances[Slot(q, k, j)] == resultDistances[HitOffset(lims, q, j)] && labels[Slot(q, k, j)] == resultLabels[HitOffset(lims, q, j)]
    ensures forall i :: 0 <= i < |distances| && !HitWritten(i, n, k, lims) ==> distances[i] == distancesIn[i]
    ensures forall i :: 0 <= i < |labels| && !HitWritten(i, n, k, lims) ==> labels[i] == labelsIn[i]
    ensures forall q :: n <= q < |sizes| ==> sizes[q] == sizesIn[q]
  {
    distances, labels, sizes := distancesIn, labelsIn, sizesIn;
    var q := 0;
    while q < n
      invariant 0 <= q <= n
      invariant |distances| == |distancesIn| && |labels| == |labelsIn| && |sizes| == |sizesIn|
      invariant forall p :: 0 <= p < q ==> sizes[p] as int == WindowLength(lims, p, k)
      invariant forall p, j :: 0 <= p < q && 0 <= j < WindowLength(lims, p, k) ==>
        distances[Slot(p, k, j)] == resultDistances[HitOffset(lims, p, j)] && labels[Slot(p, k, j)] == resultLabels[HitOffset(lims, p, j)]
      invariant forall i :: 0 <= i < |distances| && !HitWritten(i, q, k, lims) ==> distances[i] == distancesIn[i]
      invariant forall i :: 0 <= i < |labels| && !HitWritten(i, q, k, lims) ==> labels[i] == labelsIn[i]
      invariant forall p :: q <= p < |sizes| ==> sizes[p] == sizesIn[p]
    {
      ghost var before := (distances, labels);
      distances, labels := CopyWindow(q, k, lims, resultDistances, resultLabels, distances, labels);
      var len := WindowLength(lims, q, k);
      sizes := sizes[q := len as i64];
      forall p, j | 0 <= p < q && 0 <= j < WindowLength(lims, p, k)
        ensures !InRowPrefix(Slot(p, k, j), q, k, len)
      {
        forall c | 0 <= c < len ensures Slot(p, k, j) < Slot(q, k, c) {
          SlotOrder(p, j, q, c, k);
        }
      }
      forall i | 0 <= i < |distances| || 0 <= i < |labels|
        ensures HitWritten(i, q + 1, k, lims) <==> HitWritten(i, q, k, lims) || InRowPrefix(i, q, k, len)
      {
        HitWrittenStep(i, q, k, lims);
      }
      q := q + 1;
    }
  }
}

=== FILE: range_scenarios.dfy ===
/**
 * Concrete runs of the range-search copy loop. The two-hit engine result is
 * that of store "a" = 0x00, "b" = 0xFF, "c" = 0xF0 searched with query 0x00
 * at radius 4: "a" at position 0, distance 0, and "c" at position 2,
 * distance 4 ("b", at distance 8, is outside the radius).
 */
module RangeScenarios {
  import opened Native
  import opened Grid
  import opened MultiHashRange

  /**
   * One query whose engine result holds two hits, (0, position 0) and
   * (4, position 2), copied at k = 3 into buffers filled with -1. As written,
   * `sizes[0]` says 2 but only slot 0 is written, with the second hit; the
   * first hit is lost.
   */
  method AsWrittenLosesResults() returns (distances: seq<i32>, labels: seq<i64>, sizes: seq<i64>)
    ensures sizes == [2] && distances == [4, -1, -1] && labels == [2, -1, -1]
  {
    GridFitsIff(3, 1, 3);
    var lims: seq<nat> := [0, 2];
    var hitDistances: seq<i32> := [0, 4];
    var hitLabels: seq<i64> := [0, 2];
    var unset32: seq<i32> := [-1, -1, -1];
    var unset64: seq<i64> := [-1, -1, -1];
    var unsetSizes: seq<i64> := [-1];
    distances, labels, sizes := RangeSearchCompact(1, 3, lims, hitDistances, hitLabels, unset32, unset64, unsetSizes);
    assert HitOffset(lims, 0, WindowLength(lims, 0, 3) - 1) == 1;
    assert sizes[0] == 2;
    assert distances[0] == 4 && labels[0] == 2;
    assert !HeadWritten(1, 1, 3, lims) && !HeadWritten(2, 1, 3, lims);
    assert distances[1] == -1 && distances[2] == -1;
    assert labels[1] == -1 && labels[2] == -1;
  }

  /** A query with no hits leaves whatever `sizes[0]` held before (here 7) instead of 0. */
  method AsWrittenLeavesStaleSize() returns (sizes: seq<i64>)
    ensures sizes == [7]
  {
    GridFitsIff(3, 1, 3);
    var lims: seq<nat> := [0, 0];
    var unset32: seq<i32> := [-1, -1, -1];
    var unset64: seq<i64> := [-1, -1, -1];
    var staleSizes: seq<i64> := [7];
    var _, _, s := RangeSearchCompact(1, 3, lims, [], [], unset32, unset64, staleSizes);
    assert WindowLength(lims, 0, 3) == 0;
    sizes := s;
  }

  /** The corrected loop on the same two-hit result keeps both hits, in order, and a count of 2. */
  method FixedKeepsEveryResult() returns (distances: seq<i32>, labels: seq<i64>, sizes: seq<i64>)
    ensures sizes == [2] && distances == [0, 4, -1] && labels == [0, 2, -1]
  {
    GridFitsIff(3, 1, 3);
    var lims: seq<nat> := [0, 2];
    var hitDistances: seq<i32> := [0, 4];
    var hitLabels: seq<i64> := [0, 2];
    var unset32: seq<i32> := [-1, -1, -1];
    var unset64: seq<i64> := [-1, -1, -1];
    var unsetSizes: seq<i64> := [-1];
    distances, labels, sizes := RangeSearchCompactFixed(1, 3, lims, hitDistances, hitLabels, unset32, unset64, unsetSizes);
    assert WindowLength(lims, 0, 3) == 2;
    assert HitOffset(lims, 0, 0) == 0 && HitOffset(lims, 0, 1) == 1;
    assert Slot(0, 3, 0) == 0 && Slot(0, 3, 1) == 1;
    assert sizes[0] == 2;
    assert distances[Slot(0, 3, 0)] == hitDistances[HitOffset(lims, 0, 0)];
    assert labels[Slot(0, 3, 0)] == hitLabels[HitOffset(lims, 0, 0)];
    assert distances[Slot(0, 3, 1)] == hitDistances[HitOffset(lims, 0, 1)];
    assert labels[Slot(0, 3, 1)] == hitLabels[HitOffset(lims, 0, 1)];
    assert distances[0] == 0 && labels[0] == 0;
    assert distances[1] == 4 && labels[1] == 2;
    assert !HitWritten(2, 1, 3, lims);
    assert distances[2] == -1 && labels[2] == -1;
  }
}

=== FILE: search_result.dfy ===
/** The per-query result records the wrapper hands back from a k-nearest-neighbour search. */
module SearchResult {
  import opened Native

  /** One ranked answer: Hamming distance, engine position and the caller's label (the Rust field `label`; `label` is a Dafny keyword). */
  datatype QueryResult = QueryResult(distance: i32, index: i64, id: string)

  /** The "no result" record: distance -1, position -1, empty label. */
  predicate IsSentinel(e: QueryResult)
  {
    e.distance == -1 && e.index == -1 && e.id == ""
  }

  /** A fresh record, before the engine's answer is copied in, is the sentinel. */
  function Sentinel(): (e: QueryResult)
    ensures IsSentinel(e)
  {
    QueryResult(-1, -1, "")
  }

  /** `rows` has exactly `n` rows of exactly `k` records each. */
  predicate HasShape(rows: seq<seq<QueryResult>>, n: nat, k: nat)
  {
    |rows| == n && forall r :: 0 <= r < n ==> |rows[r]| == k
  }

  /** The result grid for `results` queries at depth `k`, every record the sentinel. */
  function NewSearchResult(k: nat, results: nat): (rows: seq<seq<QueryResult>>)
    ensures HasShape(rows, results, k)
    ensures forall r, rk :: 0 <= r < results && 0 <= rk < k ==> IsSentinel(rows[r][rk])
  {
    seq(results, _ => seq(k, _ => Sentinel()))
  }
}
